=== FILE: README.md ===
# JLPT word cycler — a Dafny model of its core

The application (`app.py`) is a small always-on-top window for drilling Japanese vocabulary. It
shows a word, reveals its reading and meaning after one delay, and moves to the next word after
another. Each full pass through the list is followed by a reshuffle. A settings window edits the
two delays, the always-on-top flag and the word list. Words come from `words.json` or from a CSV
file with `word`, `reading` and `meaning` columns.

This project models the parts of that program that hold its logic:

| module | file | models |
|---|---|---|
| `Results` | `results.dfy` | `Option` and `Result`, for Python's `None` and raised errors |
| `Text` | `text.dfy` | `str.strip()` (Python's whitespace set), `lstrip("\ufeff")` and `lower()` |
| `WordStore` | `words.dfy` | `_clean_word_entries`, `load_words` after the JSON parse, and the editor's `_save_words` filter |
| `CsvHeaders` | `csv_headers.dfy` | the header normalisation and row projection of `load_words_from_csv` |
| `Config` | `config.dfy` | `parse_positive_int`, `ConfigManager._merge_with_defaults` and `update`, and the settings form check |
| `Scheduler` | `scheduler.dfy` | the timer state machine of `WordCyclerApp` |

The scheduler works on an immutable `App` state:

- The toolkit's queue of pending `after` timers is modelled as a map from timer id to delay, with a counter for fresh ids.
- The clock reading (`time.time() * 1000`) is an integer parameter `now`.
- The outcome of `random.shuffle` is a parameter, required to be a permutation of the list it shuffles.
- An `Event` trace (pause button, timer firing, word list saved, settings saved) drives the app through `Run`.
- `RunKeepsInvariant` shows that along any trace:
  - at most one timer is pending;
  - the index stays in range;
  - the time left is never negative;
  - the displayed list stays a shuffle of the word bank.

The source's `set_words` and `update_config` save the paused flag and set it again after `_clear_job` and `display_word`. Neither of those calls changes the flag, so the restore has no effect. `SetWords` and `UpdateConfig` keep the step as written.

## Model

| member | source | states |
|---|---|---|
| Text.Strip | app.py:27-29 | the stripped text has no whitespace at either end and is no longer than the input |
| Text.StripSplits | app.py:27-29 | every string is whitespace, then its stripped text, then whitespace |
| Text.StripUnique | app.py:27-29 | whitespace around already trimmed text strips back to exactly that text; with `StripSplits` this pins `strip()` down completely |
| Text.StripEmpty | app.py:27-30 | `strip()` leaves nothing exactly when the string is all whitespace |
| Text.StripIdempotent | app.py:27-29 | stripping twice is stripping once |
| Text.StripTrimmed | app.py:27-29 | text with no surrounding whitespace is left unchanged |
| Text.StripIgnoresPadding | app.py:27-29 | extra whitespace on either side does not change the stripped result |
| Text.StripLeadingBoms | app.py:146 | the result is a suffix of the input, everything cut off is byte-order marks, and the result does not start with one |
| Text.Lower | app.py:146 | the result agrees with the input up to case and contains no ASCII capital, which fixes it character by character |
| Text.StripIgnoresCase | app.py:146 | `strip()` cuts two strings that agree up to case at the same places |
| Text.StripLeadingBomsIgnoresCase | app.py:146 | `lstrip("\ufeff")` cuts two strings that agree up to case at the same place |
| Text.LowerIgnoresCase | app.py:146 | two strings lower-case to the same text exactly when they agree up to case |
| Text.LowerIdempotent | app.py:146 | lower-casing twice is lower-casing once |
| WordStore.FieldOf | app.py:27-29 | no contract: a missing key reads as the empty string |
| WordStore.TrimFields | app.py:27-29 | no contract: the entry with each of the three fields stripped |
| WordStore.TrimEntry | app.py:355-357 | no contract: the editor's entry with each of its three fields stripped |
| WordStore.Accept | app.py:25-31 | an item is kept only if it is an object, and is kept as its three fields stripped |
| WordStore.AcceptsNonBlank | app.py:25-30 | an item is kept exactly when it is an object none of whose `word`, `reading`, `meaning` is blank or missing |
| WordStore.AcceptedIsClean | app.py:27-31 | a kept entry has three non-empty fields without surrounding whitespace |
| WordStore.Clean | app.py:22-32 | the cleaned list is no longer than the input and is empty exactly when no item is kept |
| WordStore.CleanIsClean | app.py:22-31 | every cleaned entry is clean |
| WordStore.CleanAppend | app.py:23-31 | cleaning a concatenation cleans each part, so kept entries keep their input order |
| WordStore.CleanSingle | app.py:24-31 | a single item cleans to its accepted entry or to nothing; with `CleanAppend` this determines `Clean` on every list |
| WordStore.CleanMembership | app.py:23-31 | an entry is in the cleaned list exactly when some input item is kept as that entry |
| WordStore.CleanEntries | app.py:22-36 | a `NoValidEntries` error naming the source exactly when nothing is kept, otherwise the non-empty cleaned list |
| WordStore.CleanIdempotent | app.py:22-36 | cleaning entries that are already clean returns them unchanged |
| WordStore.AcceptClean | app.py:25-31 | a clean entry survives the filter unchanged |
| WordStore.LoadWords | app.py:130-133 | a document that is not an array is refused with `WrongTopLevel`; an array is cleaned, and a success holds only clean entries |
| WordStore.TrimEntries | app.py:353-360 | the editor's filter returns no more entries than it is given, each of them clean |
| WordStore.TrimEntryDropped | app.py:355-359 | the editor drops an entry exactly when one of its three fields is empty or whitespace only |
| WordStore.TrimEntriesEmpty | app.py:353-362 | the editor's filter keeps nothing exactly when every entry has a blank field |
| WordStore.TrimEntriesIsClean | app.py:352-360 | the editor's filter keeps and trims exactly what the file loaders' filter does |
| WordStore.SaveWordList | app.py:352-364 | refused exactly when every entry has a blank field; otherwise exactly the loaders' filter applied to the entries, so the trimmed survivors in their order, non-empty and clean |
| WordStore.SaveWordListIdempotent | app.py:352-366 | saving the saved list a second time changes nothing |
| Text.LowerKeepsFirstBom | app.py:146 | lower-casing a non-empty string keeps whether it starts with a byte-order mark |
| CsvHeaders.NormalizeHeader | app.py:146 | the normal form is no longer than the name, has no ASCII capital and does not start with a byte-order mark |
| CsvHeaders.HeaderMap | app.py:142-148 | every key is non-empty and maps to a header of the row that normalises to it |
| CsvHeaders.IndexHeaders | app.py:142-148 | every key is non-empty and maps to a header of the row whose normal form it is |
| CsvHeaders.IndexHeadersKeys | app.py:142-148 | a key is indexed exactly when some non-empty header has that non-empty normal form |
| CsvHeaders.IndexHeadersPicksLast | app.py:142-148 | among headers sharing a normal form, the last one wins |
| CsvHeaders.HeaderMapKeys | app.py:142-148 | a key is in the header map exactly when some header normalises to it and it is non-empty |
| CsvHeaders.HeaderMapPicksLast | app.py:142-148 | the column used for a key is the last header normalising to it |
| CsvHeaders.ResolveHeaders | app.py:140-153 | no header row gives `NoHeaderRow`; otherwise a missing column gives `MissingHeaders`; a success names headers of the row normalising to `word`, `reading`, `meaning` |
| CsvHeaders.ResolveHeadersSucceedsIff | app.py:149-153 | the header row is accepted exactly when each required name is some header's normal form |
| CsvHeaders.NormalizeHeaderIgnoresCase | app.py:146 | header matching ignores letter case |
| CsvHeaders.NormalizeHeaderIgnoresPadding | app.py:146 | header matching ignores whitespace around the name |
| CsvHeaders.NormalizeHeaderIgnoresBom | app.py:146 | header matching ignores a byte-order mark in front of a name that does not start with whitespace |
| CsvHeaders.NormalizeTrimmedHeader | app.py:146 | a header without surrounding whitespace or a leading byte-order mark is only lower-cased |
| CsvHeaders.NormalHeaderIsFixed | app.py:146 | a lower-case, trimmed name without a byte-order mark is its own normal form |
| CsvHeaders.RequiredNameIsNormal | app.py:149 | `word`, `reading` and `meaning` are their own normal forms |
| CsvHeaders.AnyCaseHeadersResolve | app.py:142-153 | headers spelling the three names in any mix of case are accepted |
| CsvHeaders.CellAsWritten | app.py:158-160 | no contract: the cell text, "" for an absent column, and "None" for a short row's `None` cell, as `str()` later renders it |
| CsvHeaders.RowItemAsWritten | app.py:156-162 | no contract: the record the loader as written builds from a row |
| CsvHeaders.CellText | app.py:158-160 | no contract: the cell text, with an absent column and a short row's missing cell both read as "" |
| CsvHeaders.RowItem | app.py:156-162 | no contract: the record the loader builds from a row, with missing cells read as "" |
| CsvHeaders.RowItems | app.py:155-162 | no contract: one record per data row, in file order |
| CsvHeaders.LoadWordsCsv | app.py:136-172 | header errors pass through; otherwise the projected rows are cleaned, and a success is non-empty, clean and no longer than the rows |
| CsvHeaders.LoadWordsCsvProvenance | app.py:154-172 | every imported entry is some row's three resolved cells, stripped |
| CsvHeaders.IncompleteRowDropped | app.py:154-172 | a row with a blank or missing required cell is never imported |
| CsvHeaders.ShortRowKeptAsWritten | app.py:154-162 | as written, a row too short to reach the meaning column is imported with the meaning "None" |
| CsvHeaders.ShortRowDropped | app.py:154-162 | corrected: a row too short to reach a required column is never imported |
| Config.ToInt | app.py:64 | an integer converts to itself; a missing value or an array or object does not convert |
| Config.ParsePositiveInt | app.py:62-67 | the converted value when it is a positive integer, the fallback otherwise; positive whenever the fallback is |
| Config.MergeWithDefaults | app.py:90-102 | always valid; a non-object gives the defaults; `alwaysOnTop` is taken only from a boolean |
| Config.MergeIsPerField | app.py:90-102 | each stored field depends on that field of the input alone |
| Config.InvalidTimerFallsBackAlone | app.py:93-98 | a bad `showMeaningTimer` falls back to 3 without disturbing the other fields |
| Config.NonBooleanTopmostKeepsDefault | app.py:99-101 | a missing or non-boolean `alwaysOnTop` reads as true while valid timers are kept |
| Config.MergeRoundTrip | app.py:104-108 | valid settings written out and merged back are unchanged |
| Config.MergeIdempotent | app.py:104-106 | merging a merged configuration changes nothing |
| Config.Lookup | app.py:94-99 | no contract: the value stored under a key, `Missing` when the key is absent |
| Config.ToRaw | app.py:108 | no contract: the object the settings are written out as, one entry per field |
| Config.Update | app.py:110-117 | always valid; each timer is the given one when it converts to a positive integer, else its default; the flag as given |
| Config.UpdateAgreesWithMerge | app.py:110-117 | `update` coerces exactly as loading a file holding the same values does |
| Config.UpdatePersists | app.py:110-118 | settings stored by `update` survive a save and reload |
| Config.SubmitSettings | app.py:289-297 | the form is accepted exactly when both timers convert to positive integers, and then stores exactly those values |
| Config.ZeroTimerNeverStored | app.py:289-297 | a zero timer is refused by the form and replaced by its default in `update` |
| Scheduler.AtMostOneTimer | app.py:733-772 | under the invariant at most one timer is pending, and none while paused |
| Scheduler.ClearJob | app.py:766-772 | the pending timer, if any, is cancelled and all job state forgotten; nothing else changes |
| Scheduler.ScheduleAfter | app.py:733-741 | the callback and its full delay are recorded; the timer is armed with a fresh id and deadline only when not paused; the invariant is kept |
| Scheduler.DisplayWord | app.py:702-715 | an empty list shows the "no words" label; otherwise the current word is shown alone and its reveal is scheduled after the show-meaning delay |
| Scheduler.DisplayMeaning | app.py:717-723 | the current word's reading and meaning are revealed and the advance is scheduled after the next-word delay |
| Scheduler.Advance | app.py:725-731 | the index steps modulo the length; on wrapping to 0 the list is reshuffled; the new word is displayed; the list stays a permutation |
| Scheduler.Invoke | app.py:764 | running the stored callback (reveal the meaning, or advance to the next word) keeps the invariant, the paused flag and the settings; RevealFires and AdvanceFires state what each callback shows and arms |
| Scheduler.TimerFires | app.py:757-764 | the job state is cleared before the stored callback runs; the invariant holds after, with exactly one timer pending |
| Scheduler.RevealFires | app.py:717-723 | a due reveal shows the reading and meaning and schedules the advance |
| Scheduler.AdvanceFires | app.py:725-731 | a due advance shows the next word, reshuffled on wrap, and schedules its reveal |
| Scheduler.Pause | app.py:649-661 | sets the paused flag; a no-op when already paused; cancels the timer and keeps `max(0, deadline - now)` as the time left; the stored callback, screen, words, index, settings and bank are unchanged and no timer id is used |
| Scheduler.ResumeSchedule | app.py:743-755 | no stored job does nothing; time left runs the callback at once when zero, and otherwise re-arms the timer for exactly that time |
| Scheduler.Resume | app.py:663-668 | a no-op when running; otherwise lowers the paused flag and keeps the invariant; with no stored callback nothing else changes; with time left it arms one fresh timer for exactly that time with the same callback and the same cycle; with none left the callback runs at once |
| Scheduler.ResumeAfterPausedSetWords | app.py:686-697 | a word list saved while paused shows its first word and runs no timer; resuming then arms the reveal for the full show-meaning delay |
| Scheduler.TogglePause | app.py:643-647 | flips the paused flag and keeps the invariant |
| Scheduler.SetWords | app.py:686-697 | installs the bank, shuffled, at index 0 and restarts from its first word; while running, its reveal is armed as the one timer, for the show-meaning delay of the stored settings and due that long after now; the paused flag is kept and no timer runs while paused |
| Scheduler.UpdateConfig | app.py:670-678 | stores the updated settings and restarts the current word; while running, its reveal is armed as the one timer, for the new show-meaning delay and due that long after now; the paused flag is kept |
| Scheduler.Start | app.py:532-569 | a new app is running, at index 0, showing the first word of the shuffled bank with one timer pending |
| Scheduler.PauseIdempotent | app.py:649-651 | pausing twice is pausing once |
| Scheduler.PauseResumeKeepsTimeLeft | app.py:649-668 | paused before the deadline, resuming re-arms the same callback for the time that was left, pushing the deadline back by the pause's length |
| Scheduler.PauseResumePastDeadline | app.py:743-752 | paused at or after the deadline, resuming gives what the timer firing at that moment would have given |
| Scheduler.WordMeaningNextCycle | app.py:702-731 | two firings from a shown word reveal it and then show the next one, still drawn from the same bank |
| Scheduler.RunKeepsInvariant | app.py:643-772 | along any trace of events the invariant holds and at most one timer is pending |
| Scheduler.OnlyPauseButtonPauses | app.py:643-697 | no event but the pause button changes the paused flag |

## Findings

| source | as written | input that shows it | evidently intended | confidence | as-written member | corrected member |
|---|---|---|---|---|---|---|
| app.py:154-162 | `csv.DictReader` fills the columns a short row lacks with `None`, and `row.get(..., "")` passes that `None` on. `str(None).strip()` is then the non-blank text "None", so the row is imported | header `word,reading,meaning`, row `猫,ねこ`: imported as 猫 / ねこ / "None" | a missing cell counts as empty, so the row is dropped like one with a blank meaning | high (not executed) | CsvHeaders.ShortRowKeptAsWritten | CsvHeaders.ShortRowDropped |

`LoadWordsCsv` uses the corrected reading (`CellText`). `CellAsWritten` and `RowItemAsWritten` keep the code as written for the finding.

## Left out

- The tkinter window is not modelled: widgets, label wrapping, window dragging, the icon, `apply_topmost`, the settings and word-editor dialogs and their message boxes. The model keeps only the label texts.
- File I/O is not modelled:
  - opening, reading and writing `config.json`, `words.json` and CSV files, including `ConfigManager._load`, `save`, `save_words` and the import/export buttons;
  - their `FileNotFoundError`, `JSONDecodeError`, `UnicodeDecodeError`, `csv.Error` and `OSError` paths.
  
  The model starts from the parsed document (`JsonDocument`, `RawConfig`) or from the header row and row dictionaries produced by `csv.DictReader`.
- CSV tokenising by `csv.DictReader` is not modelled: quoting, blank-line skipping, and the `restkey` list for over-long rows. Rows arrive as maps from header to cell, with `None` for the cells of a short row.
- `str()` coercion of non-string values in `_clean_word_entries` is not modelled. A JSON object's fields are strings here, and a number or `null` field is not represented.
- `int()` on text and floats is not modelled. `Numeral(asInt)` carries the result of parsing a string, and a JSON float, which `int()` would truncate, is not represented.
- Python's `lower()` is modelled on ASCII letters only. Non-ASCII capitals are left as they are. The only ones Python lower-cases into ASCII are the Kelvin sign (to `k`) and `İ` (to `i` plus a combining dot). So a header containing one never normalises to `word`, `reading` or `meaning`, in Python or in the model, and header resolution is unaffected.
- Time is modelled as integer milliseconds. `time.time()` returns a float, and the `int(...)` truncation in `_resume_schedule` is therefore the identity in the model.
- `random.shuffle` is modelled as any permutation supplied by the caller. Its distribution is not modelled.
- Timer ids are modelled as a counter. The toolkit's real `after` ids are opaque strings.
- `detach_console_window`, `main`, `WordCyclerApp.save_words` (a file write followed by `set_words`) and `get_all_words` (a copy) are left out.
- CsvHeaders.LoadWordsCsv: it reads a short row's `None` cell as empty, the corrected reading of the finding above, so it drops a row the source imports with the meaning "None".
- CsvHeaders.LoadWordsCsvProvenance: it is stated for the corrected reading, so it does not cover the source's "None" meaning, which is no cell of the row.
- CsvHeaders.IncompleteRowDropped: it is stated for the corrected reading; as written, a short row's `None` cell is not dropped (see `ShortRowKeptAsWritten`).
- Scheduler.SetWords: it requires the app's map of pending timers to hold exactly the current job, so that the timer it cancels is the only one. This is a consistency condition of the timer model, which every reachable state meets. The source states no such requirement.
- Scheduler.TogglePause: its own contract states only the flag flip and the invariant. The effect on the timer is stated by `PauseResumeKeepsTimeLeft` and `PauseResumePastDeadline`.
- Scheduler.DisplayMeaning: it requires a non-empty word list. The source indexes `self.words` without a check and would raise `IndexError` on an empty list. The reveal is only ever scheduled by `display_word` on a non-empty list, which the invariant records.

=== FILE: config.dfy ===
/** The settings store: three fields, each validated on its own and falling back to its default. */
module Config {
  import opened Results

  /** A JSON value as `int()` and `isinstance(_, bool)` see it. `Numeral` carries what `int()` makes of the
      string, or `None` when it raises. `Missing` is an absent key or `null`; `Structured` an array or object. */
  datatype RawValue =
    | Missing
    | Boolean(b: bool)
    | Integer(n: int)
    | Numeral(asInt: Option<int>)
    | Structured

  /** The stored settings; the timers are in seconds. */
  datatype Settings = Settings(showMeaningTimer: int, nextWordTimer: int, alwaysOnTop: bool)

  /** `DEFAULT_CONFIG`. */
  const Defaults: Settings := Settings(3, 5, true)

  /** What every stored configuration satisfies: both timers at least one second. */
  predicate Valid(c: Settings) {
    c.showMeaningTimer > 0 && c.nextWordTimer > 0
  }

  /** A parsed `config.json`: an object, or some other top-level value. */
  datatype RawConfig = NotAnObject | ConfigObject(fields: map<string, RawValue>)

  /** `raw.get(key)`. */
  function Lookup(fields: map<string, RawValue>, key: string): RawValue {
    if key in fields then fields[key] else Missing
  }

  /** `int(value)`, or `None` where it raises `TypeError` or `ValueError`; a bool converts to 0 or 1. */
  function ToInt(v: RawValue): (r: Option<int>)
    ensures v.Integer? ==> r == Some(v.n)
    ensures v.Missing? || v.Structured? ==> r.None?
  {
    match v
    case Missing => None
    case Boolean(b) => Some(if b then 1 else 0)
    case Integer(n) => Some(n)
    case Numeral(p) => p
    case Structured => None
  }

  /** `value` converts to an integer greater than zero. */
  predicate IsPositiveInt(v: RawValue) {
    ToInt(v).Some? && ToInt(v).value > 0
  }

  /** `parse_positive_int`: the integer `value` converts to when that is positive, else `fallback`. */
  function ParsePositiveInt(v: RawValue, fallback: int): (r: int)
    ensures IsPositiveInt(v) ==> r == ToInt(v).value
    ensures !IsPositiveInt(v) ==> r == fallback
    ensures fallback > 0 ==> r > 0
  {
    match ToInt(v)
    case None => fallback
    case Some(n) => if n > 0 then n else fallback
  }

  /** `ConfigManager._merge_with_defaults`: each field taken from `raw` when it is acceptable there. */
  function MergeWithDefaults(raw: RawConfig): (r: Settings)
    ensures Valid(r)
    ensures raw.NotAnObject? ==> r == Defaults
    ensures raw.ConfigObject? ==>
      var aot := Lookup(raw.fields, "alwaysOnTop");
      r.alwaysOnTop == (if aot.Boolean? then aot.b else Defaults.alwaysOnTop)
  {
    match raw
    case NotAnObject => Defaults
    case ConfigObject(fields) =>
      var aot := Lookup(fields, "alwaysOnTop");
      Settings(
        ParsePositiveInt(Lookup(fields, "showMeaningTimer"), Defaults.showMeaningTimer),
        ParsePositiveInt(Lookup(fields, "nextWordTimer"), Defaults.nextWordTimer),
        if aot.Boolean? then aot.b else Defaults.alwaysOnTop)
  }

  /** Each field of the merge depends on that field of the input alone. */
  lemma MergeIsPerField(a: map<string, RawValue>, b: map<string, RawValue>)
    ensures Lookup(a, "showMeaningTimer") == Lookup(b, "showMeaningTimer") ==>
      MergeWithDefaults(ConfigObject(a)).showMeaningTimer == MergeWithDefaults(ConfigObject(b)).showMeaningTimer
    ensures Lookup(a, "nextWordTimer") == Lookup(b, "nextWordTimer") ==>
      MergeWithDefaults(ConfigObject(a)).nextWordTimer == MergeWithDefaults(ConfigObject(b)).nextWordTimer
    ensures Lookup(a, "alwaysOnTop") == Lookup(b, "alwaysOnTop") ==>
      MergeWithDefaults(ConfigObject(a)).alwaysOnTop == MergeWithDefaults(ConfigObject(b)).alwaysOnTop
  {
  }

  /** An unacceptable timer falls back for that field only: the other fields are those of the input. */
  lemma InvalidTimerFallsBackAlone(fields: map<string, RawValue>)
    requires !IsPositiveInt(Lookup(fields, "showMeaningTimer"))
    requires IsPositiveInt(Lookup(fields, "nextWordTimer"))
    requires Lookup(fields, "alwaysOnTop").Boolean?
    ensures MergeWithDefaults(ConfigObject(fields)) ==
      Settings(Defaults.showMeaningTimer, ToInt(Lookup(fields, "nextWordTimer")).value, Lookup(fields, "alwaysOnTop").b)
  {
  }

  /** A missing or non-boolean `alwaysOnTop` reads as true while valid timers are kept. */
  lemma NonBooleanTopmostKeepsDefault(fields: map<string, RawValue>)
    requires !Lookup(fields, "alwaysOnTop").Boolean?
    requires IsPositiveInt(Lookup(fields, "showMeaningTimer")) && IsPositiveInt(Lookup(fields, "nextWordTimer"))
    ensures MergeWithDefaults(ConfigObject(fields)) ==
      Settings(ToInt(Lookup(fields, "showMeaningTimer")).value, ToInt(Lookup(fields, "nextWordTimer")).value, true)
  {
  }

  /** The JSON object `json.dump` writes for the settings. */
  function ToRaw(c: Settings): RawConfig {
    ConfigObject(map[
      "showMeaningTimer" := Integer(c.showMeaningTimer),
      "nextWordTimer" := Integer(c.nextWordTimer),
      "alwaysOnTop" := Boolean(c.alwaysOnTop)])
  }

  /** Valid settings written out and merged back are unchanged. */
  lemma MergeRoundTrip(c: Settings)
    requires Valid(c)
    ensures MergeWithDefaults(ToRaw(c)) == c
  {
    var f := ToRaw(c).fields;
    assert Lookup(f, "showMeaningTimer") == Integer(c.showMeaningTimer);
    assert Lookup(f, "nextWordTimer") == Integer(c.nextWordTimer);
    assert Lookup(f, "alwaysOnTop") == Boolean(c.alwaysOnTop);
  }

  /** Merging is idempotent: a saved, reloaded configuration merges to itself. */
  lemma MergeIdempotent(raw: RawConfig)
    ensures MergeWithDefaults(ToRaw(MergeWithDefaults(raw))) == MergeWithDefaults(raw)
  {
    MergeRoundTrip(MergeWithDefaults(raw));
  }

  /** `ConfigManager.update`: both timers coerced against the defaults, the flag taken as given.
      The previous settings play no part. */
  function Update(showMeaning: RawValue, nextWord: RawValue, alwaysOnTop: bool): (r: Settings)
    ensures Valid(r)
    ensures r.alwaysOnTop == alwaysOnTop
    ensures IsPositiveInt(showMeaning) ==> r.showMeaningTimer == ToInt(showMeaning).value
    ensures !IsPositiveInt(showMeaning) ==> r.showMeaningTimer == Defaults.showMeaningTimer
    ensures IsPositiveInt(nextWord) ==> r.nextWordTimer == ToInt(nextWord).value
    ensures !IsPositiveInt(nextWord) ==> r.nextWordTimer == Defaults.nextWordTimer
  {
    Settings(
      ParsePositiveInt(showMeaning, Defaults.showMeaningTimer),
      ParsePositiveInt(nextWord, Defaults.nextWordTimer),
      alwaysOnTop)
  }

  /** `update` coerces the timers exactly as loading a saved file does. */
  lemma UpdateAgreesWithMerge(showMeaning: RawValue, nextWord: RawValue, alwaysOnTop: bool)
    ensures Update(showMeaning, nextWord, alwaysOnTop) == MergeWithDefaults(ConfigObject(map[
      "showMeaningTimer" := showMeaning, "nextWordTimer" := nextWord, "alwaysOnTop" := Boolean(alwaysOnTop)]))
  {
    var f := map["showMeaningTimer" := showMeaning, "nextWordTimer" := nextWord, "alwaysOnTop" := Boolean(alwaysOnTop)];
    assert Lookup(f, "showMeaningTimer") == showMeaning;
    assert Lookup(f, "nextWordTimer") == nextWord;
    assert Lookup(f, "alwaysOnTop") == Boolean(alwaysOnTop);
  }

  /** Settings stored by `update` read back unchanged after a save and a reload. */
  lemma UpdatePersists(showMeaning: RawValue, nextWord: RawValue, alwaysOnTop: bool)
    ensures MergeWithDefaults(ToRaw(Update(showMeaning, nextWord, alwaysOnTop))) == Update(showMeaning, nextWord, alwaysOnTop)
  {
    MergeRoundTrip(Update(showMeaning, nextWord, alwaysOnTop));
  }

  /** Why the settings form refused its input. */
  datatype FormError = TimerNotPositive

  /** `SettingsWindow._save_settings`: both timer fields must parse to integers of at least one;
      otherwise the form reports an input error and nothing is stored. */
  function SubmitSettings(showMeaning: RawValue, nextWord: RawValue, alwaysOnTop: bool)
    : (r: Result<Settings, FormError>)
    ensures r.Ok? <==> IsPositiveInt(showMeaning) && IsPositiveInt(nextWord)
    ensures r.Ok? ==> r.value == Settings(ToInt(showMeaning).value, ToInt(nextWord).value, alwaysOnTop)
  {
    var show := ParsePositiveInt(showMeaning, -1);
    var next := ParsePositiveInt(nextWord, -1);
    if show <= 0 || next <= 0 then Err(TimerNotPositive)
    else Ok(Update(Integer(show), Integer(next), alwaysOnTop))
  }

  /** A zero timer is never stored: the form refuses it and `update` replaces it by the default. */
  lemma ZeroTimerNeverStored(next: RawValue, alwaysOnTop: bool)
    ensures SubmitSettings(Integer(0), next, alwaysOnTop).Err?
    ensures Update(Integer(0), next, alwaysOnTop).showMeaningTimer == Defaults.showMeaningTimer
  {
  }
}

=== FILE: csv_headers.dfy ===
/** CSV word import: resolving the header row to the three required columns, and turning
    the rows into records for the shared word filter. */
module CsvHeaders {
  import opened Results
  import opened Text
  import opened WordStore

  /** The column each field is read from, as the header is spelled in the file. */
  datatype Columns = Columns(word: string, reading: string, meaning: string)

  /** Whitespace stripped, then leading byte-order marks, then lower-cased. */
  function NormalizeHeader(name: string): (r: string)
    ensures |r| <= |name|
    ensures r == [] || !IsBom(r[0])
    ensures forall i :: 0 <= i < |r| ==> !('A' <= r[i] <= 'Z')
  {
    var trimmed := StripLeadingBoms(Strip(name));
    LowerKeepsFirstBom(trimmed);
    Lower(trimmed)
  }

  /** The loop over the header row: each non-empty header is entered under its `norm` form,
      unless that form is empty; a later header overwrites an earlier one. */
  function IndexHeaders(names: seq<string>, norm: string -> string): (m: map<string, string>)
    ensures forall k :: k in m ==> k != "" && m[k] in names && norm(m[k]) == k
  {
    if names == [] then map[]
    else
      var m := IndexHeaders(names[..|names| - 1], norm);
      var name := names[|names| - 1];
      if name == "" then m
      else
        var key := norm(name);
        if key != "" then m[key := name] else m
  }

  /** The header map of `load_words_from_csv`: normalised name to the header as written. */
  function HeaderMap(names: seq<string>): (m: map<string, string>)
    ensures forall k :: k in m ==> k != "" && m[k] in names && NormalizeHeader(m[k]) == k
  {
    IndexHeaders(names, NormalizeHeader)
  }

  /** A key is indexed exactly when some non-empty header has that non-empty form. */
  lemma {:induction false} IndexHeadersKeys(names: seq<string>, norm: string -> string, k: string)
    ensures k in IndexHeaders(names, norm) <==>
      k != "" && exists i :: 0 <= i < |names| && names[i] != "" && norm(names[i]) == k
  {
    if names != [] {
      var init := names[..|names| - 1];
      IndexHeadersKeys(init, norm, k);
      assert forall i :: 0 <= i < |init| ==> init[i] == names[i];
      if k != "" && exists i :: 0 <= i < |names| && names[i] != "" && norm(names[i]) == k {
        var i :| 0 <= i < |names| && names[i] != "" && norm(names[i]) == k;
        if i < |init| {
          assert init[i] != "" && norm(init[i]) == k;
        }
      }
    }
  }

  /** When several headers share a form, the last of them is the one indexed. */
  lemma {:induction false} IndexHeadersPicksLast(names: seq<string>, norm: string -> string, k: string) returns (i: nat)
    requires k in IndexHeaders(names, norm)
    ensures i < |names| && IndexHeaders(names, norm)[k] == names[i] && norm(names[i]) == k
    ensures forall j :: i < j < |names| && names[j] != "" ==> norm(names[j]) != k
  {
    var init := names[..|names| - 1];
    var last := names[|names| - 1];
    if last != "" && norm(last) == k {
      i := |names| - 1;
    } else {
      i := IndexHeadersPicksLast(init, norm, k);
    }
  }

  lemma NormalizeEmptyHeader()
    ensures NormalizeHeader("") == ""
  {
  }

  /** A key is in the header map exactly when some header normalises to that non-empty key. */
  lemma HeaderMapKeys(names: seq<string>, k: string)
    ensures k in HeaderMap(names) <==> k != "" && exists i :: 0 <= i < |names| && NormalizeHeader(names[i]) == k
  {
    IndexHeadersKeys(names, NormalizeHeader, k);
    NormalizeEmptyHeader();
  }

  /** When several headers normalise to the same key, the column used is the last of them. */
  lemma HeaderMapPicksLast(names: seq<string>, k: string) returns (i: nat)
    requires k in HeaderMap(names)
    ensures i < |names| && HeaderMap(names)[k] == names[i] && NormalizeHeader(names[i]) == k
    ensures forall j :: i < j < |names| ==> NormalizeHeader(names[j]) != k
  {
    i := IndexHeadersPicksLast(names, NormalizeHeader, k);
    NormalizeEmptyHeader();
  }

  /** The header check of `load_words_from_csv`: no header row, or a required column missing, is an error. */
  function ResolveHeaders(fieldnames: Option<seq<string>>, source: string): (r: Result<Columns, LoadError>)
    ensures fieldnames.None? <==> r == Err(NoHeaderRow(source))
    ensures r.Err? ==> r.error == NoHeaderRow(source) || r.error == MissingHeaders(source)
    ensures r.Ok? ==>
      && r.value.word in fieldnames.value && NormalizeHeader(r.value.word) == "word"
      && r.value.reading in fieldnames.value && NormalizeHeader(r.value.reading) == "reading"
      && r.value.meaning in fieldnames.value && NormalizeHeader(r.value.meaning) == "meaning"
  {
    match fieldnames
    case None => Err(NoHeaderRow(source))
    case Some(names) =>
      var m := HeaderMap(names);
      if "word" in m && "reading" in m && "meaning" in m then Ok(Columns(m["word"], m["reading"], m["meaning"]))
      else Err(MissingHeaders(source))
  }

  /** Some header normalises to `key`. */
  predicate HasColumn(names: seq<string>, key: string) {
    exists i :: 0 <= i < |names| && NormalizeHeader(names[i]) == key
  }

  /** The header row resolves exactly when each of `word`, `reading`, `meaning` is some header's normal form. */
  lemma ResolveHeadersSucceedsIff(names: seq<string>, source: string)
    ensures ResolveHeaders(Some(names), source).Ok? <==>
      HasColumn(names, "word") && HasColumn(names, "reading") && HasColumn(names, "meaning")
    ensures ResolveHeaders(Some(names), source).Err? ==> ResolveHeaders(Some(names), source).error == MissingHeaders(source)
  {
    HeaderMapKeys(names, "word");
    HeaderMapKeys(names, "reading");
    HeaderMapKeys(names, "meaning");
  }

  /** Header matching ignores the case of letters. */
  lemma NormalizeHeaderIgnoresCase(s: string, t: string)
    requires SameIgnoringCase(s, t)
    ensures NormalizeHeader(s) == NormalizeHeader(t)
  {
    StripIgnoresCase(s, t);
    StripLeadingBomsIgnoresCase(Strip(s), Strip(t));
    LowerIgnoresCase(StripLeadingBoms(Strip(s)), StripLeadingBoms(Strip(t)));
  }

  /** Header matching ignores whitespace around the name. */
  lemma NormalizeHeaderIgnoresPadding(left: string, s: string, right: string)
    requires AllSpace(left) && AllSpace(right)
    ensures NormalizeHeader(left + s + right) == NormalizeHeader(s)
  {
    StripIgnoresPadding(left, s, right);
  }

  /** Header matching ignores a byte-order mark in front of a name that does not start with whitespace. */
  lemma NormalizeHeaderIgnoresBom(s: string)
    requires s == [] || !IsSpace(s[0])
    ensures NormalizeHeader([Bom] + s) == NormalizeHeader(s)
  {
    StripConsNonSpace(Bom, s);
    StripLeadingBomsCons(Strip(s));
  }

  /** A header already free of surrounding whitespace and byte-order marks is just lower-cased. */
  lemma NormalizeTrimmedHeader(s: string)
    requires Trimmed(s) && (s == [] || !IsBom(s[0]))
    ensures NormalizeHeader(s) == Lower(s)
  {
    StripUnique([], s, []);
    assert [] + s + [] == s;
  }

  /** A row as `csv.DictReader` yields it: every header maps to its cell's text, or to `None`
      (`restval`) when the row is shorter than the header row. */
  type CsvRow = map<string, Option<string>>

  /** `str(row.get(column, ""))` as the loader computes it: a `None` cell becomes the text "None". */
  function CellAsWritten(row: CsvRow, column: string): string {
    if column !in row then ""
    else match row[column]
      case Some(text) => text
      case None => "None"
  }

  /** What the loader evidently means to read: a `None` cell counts as empty. */
  function CellText(row: CsvRow, column: string): string {
    if column in row && row[column].Some? then row[column].value else ""
  }

  /** The record a CSV row yields in the loader as written. */
  function RowItemAsWritten(row: CsvRow, cols: Columns): RawItem {
    Object(map["word" := CellAsWritten(row, cols.word), "reading" := CellAsWritten(row, cols.reading),
               "meaning" := CellAsWritten(row, cols.meaning)])
  }

  /** The record a CSV row yields: each field read from its resolved column, `""` when the row lacks it. */
  function RowItem(row: CsvRow, cols: Columns): RawItem {
    Object(map["word" := CellText(row, cols.word), "reading" := CellText(row, cols.reading), "meaning" := CellText(row, cols.meaning)])
  }

  function RowItems(rows: seq<CsvRow>, cols: Columns): seq<RawItem> {
    seq(|rows|, j requires 0 <= j < |rows| => RowItem(rows[j], cols))
  }

  /** The entry row `row` is stored as, once its three columns are stripped. */
  function RowEntry(row: CsvRow, cols: Columns): WordEntry {
    WordEntry(Strip(CellText(row, cols.word)), Strip(CellText(row, cols.reading)), Strip(CellText(row, cols.meaning)))
  }

  /** `load_words_from_csv` after `csv.DictReader`: resolve the headers, project the rows, clean them. */
  function LoadWordsCsv(fieldnames: Option<seq<string>>, rows: seq<CsvRow>, source: string)
    : (r: Result<seq<WordEntry>, LoadError>)
    ensures ResolveHeaders(fieldnames, source).Err? ==> r == Err(ResolveHeaders(fieldnames, source).error)
    ensures ResolveHeaders(fieldnames, source).Ok? ==>
      r == CleanEntries(RowItems(rows, ResolveHeaders(fieldnames, source).value), source)
    ensures r.Ok? ==> 0 < |r.value| <= |rows| && forall k :: 0 <= k < |r.value| ==> IsClean(r.value[k])
  {
    match ResolveHeaders(fieldnames, source)
    case Err(e) => Err(e)
    case Ok(cols) =>
      CleanIsClean(RowItems(rows, cols));
      CleanEntries(RowItems(rows, cols), source)
  }

  /** Every imported entry is some row's three resolved columns, stripped. */
  lemma LoadWordsCsvProvenance(fieldnames: Option<seq<string>>, rows: seq<CsvRow>, source: string, e: WordEntry)
    requires LoadWordsCsv(fieldnames, rows, source).Ok?
    requires e in LoadWordsCsv(fieldnames, rows, source).value
    ensures exists j :: 0 <= j < |rows| && e == RowEntry(rows[j], ResolveHeaders(fieldnames, source).value)
  {
    var cols := ResolveHeaders(fieldnames, source).value;
    var items := RowItems(rows, cols);
    CleanMembership(items, e);
    var j :| 0 <= j < |items| && Accept(items[j]) == Some(e);
    RowItemFields(rows[j], cols);
  }

  lemma RowItemFields(row: CsvRow, cols: Columns)
    ensures TrimFields(RowItem(row, cols).fields) == RowEntry(row, cols)
  {
    var f := RowItem(row, cols).fields;
    assert FieldOf(f, "word") == CellText(row, cols.word);
    assert FieldOf(f, "reading") == CellText(row, cols.reading);
    assert FieldOf(f, "meaning") == CellText(row, cols.meaning);
  }

  /** As written, a row too short to reach the meaning column is still imported, with the
      meaning "None". */
  lemma ShortRowKeptAsWritten(row: CsvRow, cols: Columns)
    requires cols.word in row && row[cols.word].Some? && !AllSpace(row[cols.word].value)
    requires cols.reading in row && row[cols.reading].Some? && !AllSpace(row[cols.reading].value)
    requires cols.meaning in row && row[cols.meaning].None?
    ensures Accept(RowItemAsWritten(row, cols)) ==
      Some(WordEntry(Strip(row[cols.word].value), Strip(row[cols.reading].value), "None"))
  {
    var f := RowItemAsWritten(row, cols).fields;
    assert FieldOf(f, "word") == row[cols.word].value;
    assert FieldOf(f, "reading") == row[cols.reading].value;
    assert FieldOf(f, "meaning") == "None";
    StripEmpty(row[cols.word].value);
    StripEmpty(row[cols.reading].value);
    StripTrimmed("None");
  }

  /** A row that lacks any of the three columns, or leaves one blank, is never imported. */
  lemma IncompleteRowDropped(row: CsvRow, cols: Columns)
    requires AllSpace(CellText(row, cols.word)) || AllSpace(CellText(row, cols.reading)) || AllSpace(CellText(row, cols.meaning))
    ensures Accept(RowItem(row, cols)).None?
  {
    RowItemFields(row, cols);
    StripEmpty(CellText(row, cols.word));
    StripEmpty(CellText(row, cols.reading));
    StripEmpty(CellText(row, cols.meaning));
  }

  /** A short row is never imported: a `None` cell reads as empty. */
  lemma ShortRowDropped(row: CsvRow, cols: Columns)
    requires (cols.word in row && row[cols.word].None?) || (cols.reading in row && row[cols.reading].None?)
      || (cols.meaning in row && row[cols.meaning].None?)
    ensures Accept(RowItem(row, cols)).None?
  {
    IncompleteRowDropped(row, cols);
  }

  /** A header row naming the three columns in any mix of upper and lower case is accepted. */
  lemma AnyCaseHeadersResolve(names: seq<string>, w: nat, r: nat, m: nat, source: string)
    requires w < |names| && r < |names| && m < |names|
    requires SameIgnoringCase(names[w], "word")
    requires SameIgnoringCase(names[r], "reading")
    requires SameIgnoringCase(names[m], "meaning")
    ensures ResolveHeaders(Some(names), source).Ok?
  {
    NormalizeHeaderIgnoresCase(names[w], "word");
    NormalizeHeaderIgnoresCase(names[r], "reading");
    NormalizeHeaderIgnoresCase(names[m], "meaning");
    RequiredNameIsNormal("word");
    RequiredNameIsNormal("reading");
    RequiredNameIsNormal("meaning");
    assert HasColumn(names, "word") && HasColumn(names, "reading") && HasColumn(names, "meaning");
    ResolveHeadersSucceedsIff(names, source);
  }

  /** A lower-case name without surrounding whitespace or a byte-order mark is its own normal form. */
  lemma NormalHeaderIsFixed(s: string)
    requires Trimmed(s) && (s == [] || !IsBom(s[0]))
    requires forall i :: 0 <= i < |s| ==> !('A' <= s[i] <= 'Z')
    ensures NormalizeHeader(s) == s
  {
    NormalizeTrimmedHeader(s);
  }

  /** The three required column names are their own normal forms. */
  lemma RequiredNameIsNormal(s: string)
    requires s == "word" || s == "reading" || s == "meaning"
    ensures NormalizeHeader(s) == s
  {
    if s == "word" {
      NormalHeaderIsFixed("word");
    } else if s == "reading" {
      NormalHeaderIsFixed("reading");
    } else {
      NormalHeaderIsFixed("meaning");
    }
  }
}

=== FILE: results.dfy ===
/** Failure-carrying values shared by the loaders, the settings form and the scheduler. */
module Results {

  /** A value that may be absent: Python's `None` or a missing handle. */
  datatype Option<+T> = None | Some(value: T)

  /** The outcome of an operation that either produces a value or raises an error. */
  datatype Result<+T, +E> = Ok(value: T) | Err(error: E)
}

=== FILE: scheduler.dfy ===
/** The word cycler's display loop: show a word, reveal its reading and meaning after one delay,
    move to the next word after another, reshuffling at the end of each pass. A single toolkit
    timer drives it; pausing captures the time left on that timer and resuming re-arms it. */
module Scheduler {
  import opened Results
  import opened WordStore
  import opened Config

  /** The method a pending timer will call: `display_meaning` or `advance_word`. */
  datatype Callback = ShowMeaning | AdvanceWord

  /** The three labels of the main window. */
  datatype Screen = Screen(word: string, reading: string, meaning: string)

  /** Shown in place of a word when the list is empty ("no words"). */
  const NoWordsLabel: string := "\U{B2E8}\U{C5B4} \U{C5C6}\U{C74C}"

  /** The cycler's state. `timers` is the toolkit's queue of pending `after` timers (id to delay in
      milliseconds); `currentJob` is the id the app holds. All times are integer milliseconds. */
  datatype App = App(
    config: Settings,
    wordBank: seq<WordEntry>,
    words: seq<WordEntry>,
    index: nat,
    screen: Screen,
    paused: bool,
    currentJob: Option<nat>,
    callback: Option<Callback>,
    remainingMs: Option<int>,
    jobEndTime: Option<int>,
    timers: map<nat, int>,
    nextTimerId: nat)

  function ShowMeaningMs(c: Settings): int {
    c.showMeaningTimer * 1000
  }

  function NextWordMs(c: Settings): int {
    c.nextWordTimer * 1000
  }

  /** `max(0, x)`. */
  function NonNegative(x: int): (r: int)
    ensures r >= 0 && r >= x && (r == x || r == 0)
  {
    if x > 0 then x else 0
  }

  /** The current index points into the list, and is 0 when the list is empty. */
  predicate IndexInRange(s: App) {
    if s.words == [] then s.index == 0 else s.index < |s.words|
  }

  /** The toolkit holds exactly the app's current timer, or nothing when the app holds none. */
  predicate OnlyCurrentTimer(s: App) {
    s.timers.Keys == (if s.currentJob.Some? then {s.currentJob.value} else {})
  }

  /** The state invariant of the cycler. */
  predicate Inv(s: App) {
    && Valid(s.config)
    && multiset(s.words) == multiset(s.wordBank)
    && IndexInRange(s)
    && OnlyCurrentTimer(s)
    && (s.currentJob.Some? ==>
          !s.paused && s.callback.Some? && s.jobEndTime.Some? && s.timers[s.currentJob.value] > 0)
    && (s.jobEndTime.Some? ==> s.currentJob.Some?)
    && (s.callback.Some? <==> s.remainingMs.Some?)
    && (s.remainingMs.Some? ==> s.remainingMs.value >= 0)
    && (s.callback.Some? ==> s.words != [])
    && (!s.paused && s.callback.Some? ==> s.currentJob.Some?)
  }

  /** No job of any kind is recorded. */
  predicate NoJob(s: App) {
    s.currentJob.None? && s.callback.None? && s.remainingMs.None? && s.jobEndTime.None?
  }

  /** The two states agree on everything but the job bookkeeping. */
  predicate SameCycle(a: App, b: App) {
    && a.config == b.config && a.wordBank == b.wordBank && a.words == b.words
    && a.index == b.index && a.screen == b.screen && a.paused == b.paused
  }

  /** Under the invariant at most one timer is ever pending. */
  lemma AtMostOneTimer(s: App)
    requires Inv(s)
    ensures |s.timers| <= 1
    ensures s.paused ==> s.timers == map[]
  {
    if s.currentJob.Some? {
      assert s.timers.Keys == {s.currentJob.value};
    } else {
      assert s.timers.Keys == {};
    }
  }

  /** `_clear_job`: cancel the pending timer, if any, and forget the job. */
  function ClearJob(s: App): (r: App)
    ensures NoJob(r) && SameCycle(r, s) && r.nextTimerId == s.nextTimerId
    ensures s.currentJob.Some? ==> r.timers == s.timers - {s.currentJob.value}
    ensures s.currentJob.None? ==> r.timers == s.timers
    ensures OnlyCurrentTimer(s) ==> r.timers == map[]
    ensures Inv(s) ==> Inv(r)
  {
    var timers := if s.currentJob.Some? then s.timers - {s.currentJob.value} else s.timers;
    s.(timers := timers, currentJob := None, callback := None, remainingMs := None, jobEndTime := None)
  }

  /** `_schedule_after`: replace any job by `callback` after `delayMs`; while paused the timer is
      not armed and only the callback and its full delay are kept. */
  function ScheduleAfter(s: App, delayMs: int, callback: Callback, now: int): (r: App)
    ensures r.callback == Some(callback) && r.remainingMs == Some(delayMs) && SameCycle(r, s)
    ensures s.paused ==> r.currentJob.None? && r.jobEndTime.None? && r.timers == ClearJob(s).timers
    ensures !s.paused ==>
      && r.currentJob == Some(s.nextTimerId) && r.jobEndTime == Some(now + delayMs)
      && r.timers == ClearJob(s).timers[s.nextTimerId := delayMs]
    ensures OnlyCurrentTimer(s) && !s.paused ==> r.timers == map[s.nextTimerId := delayMs]
    ensures Inv(s) && delayMs > 0 && s.words != [] ==> Inv(r)
  {
    var c := ClearJob(s).(callback := Some(callback), remainingMs := Some(delayMs));
    if !c.paused then
      var id := c.nextTimerId;
      c.(jobEndTime := Some(now + delayMs), currentJob := Some(id), timers := c.timers[id := delayMs], nextTimerId := id + 1)
    else
      c.(jobEndTime := None)
  }

  /** `display_word`: show the current word with its reading and meaning hidden, and schedule the reveal. */
  function DisplayWord(s: App, now: int): (r: App)
    requires Inv(s)
    ensures Inv(r)
    ensures s.words == [] ==> r == s.(screen := Screen(NoWordsLabel, "", ""))
    ensures s.words != [] ==>
      && r.screen == Screen(s.words[s.index].word, "", "")
      && r.callback == Some(ShowMeaning) && r.remainingMs == Some(ShowMeaningMs(s.config))
      && (!s.paused ==> r.jobEndTime == Some(now + ShowMeaningMs(s.config)) && r.timers == map[s.nextTimerId := ShowMeaningMs(s.config)])
      && (s.paused ==> r.currentJob.None? && r.timers == map[])
    ensures r.words == s.words && r.wordBank == s.wordBank && r.index == s.index
    ensures r.paused == s.paused && r.config == s.config
  {
    if s.words == [] then
      s.(screen := Screen(NoWordsLabel, "", ""))
    else
      var entry := s.words[s.index];
      var shown := s.(screen := Screen(entry.word, "", ""));
      ScheduleAfter(shown, ShowMeaningMs(s.config), ShowMeaning, now)
  }

  /** `display_meaning`: reveal the current word's reading and meaning, and schedule the advance. */
  function DisplayMeaning(s: App, now: int): (r: App)
    requires Inv(s) && s.words != []
    ensures Inv(r)
    ensures r.screen == Screen(s.screen.word, s.words[s.index].reading, s.words[s.index].meaning)
    ensures r.callback == Some(AdvanceWord) && r.remainingMs == Some(NextWordMs(s.config))
    ensures !s.paused ==> r.jobEndTime == Some(now + NextWordMs(s.config)) && r.timers == map[s.nextTimerId := NextWordMs(s.config)]
    ensures s.paused ==> r.currentJob.None? && r.timers == map[]
    ensures r.words == s.words && r.wordBank == s.wordBank && r.index == s.index
    ensures r.paused == s.paused && r.config == s.config
  {
    var entry := s.words[s.index];
    var shown := s.(screen := s.screen.(reading := entry.reading, meaning := entry.meaning));
    ScheduleAfter(shown, NextWordMs(s.config), AdvanceWord, now)
  }

  /** `shuffled` is one possible outcome of `random.shuffle(xs)`. */
  predicate IsShuffleOf(shuffled: seq<WordEntry>, xs: seq<WordEntry>) {
    multiset(shuffled) == multiset(xs)
  }

  /** `advance_word`: step to the next index modulo the list length, reshuffle when it wraps to 0,
      and display the word there. `shuffled` is the outcome of the shuffle. */
  function Advance(s: App, now: int, shuffled: seq<WordEntry>): (r: App)
    requires Inv(s) && IsShuffleOf(shuffled, s.words)
    ensures Inv(r)
    ensures s.words == [] ==> r == s
    ensures s.words != [] ==>
      && r.index == (s.index + 1) % |s.words|
      && r.words == (if r.index == 0 then shuffled else s.words)
      && r.screen == Screen(r.words[r.index].word, "", "")
      && r.callback == Some(ShowMeaning)
    ensures multiset(r.words) == multiset(s.words) && r.wordBank == s.wordBank
    ensures r.paused == s.paused && r.config == s.config
  {
    if s.words == [] then s
    else
      var i := (s.index + 1) % |s.words|;
      assert |shuffled| == |s.words| by {
        assert |multiset(shuffled)| == |multiset(s.words)|;
      }
      var words := if i == 0 then shuffled else s.words;
      DisplayWord(s.(index := i, words := words), now)
  }

  /** Calls the stored callback. */
  function Invoke(s: App, callback: Callback, now: int, shuffled: seq<WordEntry>): (r: App)
    requires Inv(s) && s.words != [] && IsShuffleOf(shuffled, s.words)
    ensures Inv(r) && r.paused == s.paused && r.config == s.config
  {
    match callback
    case ShowMeaning => DisplayMeaning(s, now)
    case AdvanceWord => Advance(s, now, shuffled)
  }

  /** The toolkit runs the pending timer, which calls `_execute_job`: all job state is cleared
      before the stored callback is called. */
  function TimerFires(s: App, now: int, shuffled: seq<WordEntry>): (r: App)
    requires Inv(s) && s.currentJob.Some? && IsShuffleOf(shuffled, s.words)
    ensures Inv(r) && !r.paused && r.config == s.config && r.wordBank == s.wordBank
    ensures |r.timers| == 1
  {
    var fired := s.(timers := s.timers - {s.currentJob.value});
    var cleared := fired.(currentJob := None, callback := None, remainingMs := None, jobEndTime := None);
    var r := match s.callback
      case Some(callback) => Invoke(cleared, callback, now, shuffled)
      case None => cleared;
    AtMostOneTimer(r);
    r
  }

  /** A pending reveal, once due, shows the reading and meaning of the current word and schedules the advance. */
  lemma RevealFires(s: App, now: int, shuffled: seq<WordEntry>)
    requires Inv(s) && s.currentJob.Some? && IsShuffleOf(shuffled, s.words)
    requires s.callback == Some(ShowMeaning)
    ensures var r := TimerFires(s, now, shuffled);
      && r.index == s.index && r.words == s.words
      && r.screen == Screen(s.screen.word, s.words[s.index].reading, s.words[s.index].meaning)
      && r.callback == Some(AdvanceWord) && r.jobEndTime == Some(now + NextWordMs(s.config))
      && r.currentJob.Some?
  {
  }

  /** A pending advance, once due, moves to the next word, reshuffling if the index wraps to 0,
      and schedules its reveal. */
  lemma AdvanceFires(s: App, now: int, shuffled: seq<WordEntry>)
    requires Inv(s) && s.currentJob.Some? && IsShuffleOf(shuffled, s.words)
    requires s.callback == Some(AdvanceWord)
    ensures var r := TimerFires(s, now, shuffled);
      && r.index == (s.index + 1) % |s.words|
      && r.words == (if r.index == 0 then shuffled else s.words)
      && r.screen == Screen(r.words[r.index].word, "", "")
      && r.callback == Some(ShowMeaning) && r.jobEndTime == Some(now + ShowMeaningMs(s.config))
  {
  }

  /** `pause`: stop the timer and keep the time left on it, never less than zero. */
  function Pause(s: App, now: int): (r: App)
    ensures r.paused
    ensures s.paused ==> r == s
    ensures !s.paused && s.currentJob.Some? && s.jobEndTime.Some? ==>
      && r.remainingMs == Some(NonNegative(s.jobEndTime.value - now))
      && r.jobEndTime.None? && r.currentJob.None? && r.timers == s.timers - {s.currentJob.value}
    ensures r.callback == s.callback && SameCycle(r, s.(paused := true)) && r.nextTimerId == s.nextTimerId
    ensures Inv(s) ==> Inv(r) && r.timers == map[]
  {
    if s.paused then s
    else
      var p := s.(paused := true);
      if p.currentJob.Some? then
        var cancelled := p.(timers := p.timers - {p.currentJob.value}, currentJob := None);
        if cancelled.jobEndTime.Some? then
          cancelled.(remainingMs := Some(NonNegative(cancelled.jobEndTime.value - now)), jobEndTime := None)
        else cancelled
      else p
  }

  /** `_resume_schedule`, called once the paused flag is lowered: with no time left the stored
      callback runs at once, otherwise the timer is re-armed for exactly the time that was left. */
  function ResumeSchedule(s: App, now: int, shuffled: seq<WordEntry>): (r: App)
    requires Inv(s.(paused := true)) && !s.paused && IsShuffleOf(shuffled, s.words)
    ensures Inv(r) && !r.paused && r.config == s.config
    ensures s.callback.None? ==> r == s
    ensures s.callback.Some? && s.remainingMs.value > 0 ==>
      && r.currentJob == Some(s.nextTimerId) && r.timers == map[s.nextTimerId := s.remainingMs.value]
      && r.jobEndTime == Some(now + s.remainingMs.value)
      && r.callback == s.callback && r.remainingMs == s.remainingMs && SameCycle(r, s)
    ensures s.callback.Some? && s.remainingMs.value == 0 ==>
      r == Invoke(s.(callback := None, remainingMs := None, jobEndTime := None), s.callback.value, now, shuffled)
  {
    AtMostOneTimer(s.(paused := true));
    if s.callback.None? || s.remainingMs.None? then s
    else
      var delay := NonNegative(s.remainingMs.value);
      if delay <= 0 then
        var callback := s.callback.value;
        Invoke(s.(callback := None, remainingMs := None, jobEndTime := None), callback, now, shuffled)
      else
        var id := s.nextTimerId;
        s.(jobEndTime := Some(now + delay), currentJob := Some(id), timers := s.timers[id := delay], nextTimerId := id + 1)
  }

  /** `resume`: lower the paused flag and pick the stored job up again; a no-op when running. */
  function Resume(s: App, now: int, shuffled: seq<WordEntry>): (r: App)
    requires Inv(s) && IsShuffleOf(shuffled, s.words)
    ensures Inv(r)
    ensures !s.paused ==> r == s
    ensures s.paused ==> !r.paused
    ensures s.paused && s.callback.None? ==> r == s.(paused := false)
    ensures s.paused && s.callback.Some? && s.remainingMs.value > 0 ==>
      && r.currentJob == Some(s.nextTimerId) && r.timers == map[s.nextTimerId := s.remainingMs.value]
      && r.jobEndTime == Some(now + s.remainingMs.value)
      && r.callback == s.callback && r.remainingMs == s.remainingMs && SameCycle(r, s.(paused := false))
    ensures s.paused && s.callback.Some? && s.remainingMs.value == 0 ==>
      r == Invoke(s.(paused := false, callback := None, remainingMs := None, jobEndTime := None), s.callback.value, now, shuffled)
  {
    if !s.paused then s
    else ResumeSchedule(s.(paused := false), now, shuffled)
  }

  /** `toggle_pause`: the pause button. */
  function TogglePause(s: App, now: int, shuffled: seq<WordEntry>): (r: App)
    requires Inv(s) && IsShuffleOf(shuffled, s.words)
    ensures Inv(r) && r.paused == !s.paused
  {
    if s.paused then Resume(s, now, shuffled) else Pause(s, now)
  }

  /** `set_words`: install a new word bank, shuffled, and restart from its first word; the paused
      flag is kept. */
  function SetWords(s: App, bank: seq<WordEntry>, now: int, shuffled: seq<WordEntry>): (r: App)
    requires Valid(s.config) && OnlyCurrentTimer(s) && IsShuffleOf(shuffled, bank)
    ensures Inv(r)
    ensures r.paused == s.paused && r.config == s.config
    ensures r.wordBank == bank && r.words == shuffled && r.index == 0
    ensures bank == [] ==> NoJob(r) && r.timers == map[] && r.screen == Screen(NoWordsLabel, "", "")
    ensures bank != [] ==> r.screen == Screen(shuffled[0].word, "", "") && r.callback == Some(ShowMeaning)
    ensures bank != [] ==> r.remainingMs == Some(ShowMeaningMs(s.config))
    ensures bank != [] && !s.paused ==>
      r.timers == map[s.nextTimerId := ShowMeaningMs(s.config)] && r.jobEndTime == Some(now + ShowMeaningMs(s.config))
    ensures s.paused ==> r.currentJob.None? && r.timers == map[]
  {
    var wasPaused := s.paused;
    var installed := s.(wordBank := bank, words := shuffled, index := 0);
    var cleared := ClearJob(installed);
    assert Inv(cleared);
    var restarted := DisplayWord(cleared, now);
    if wasPaused then restarted.(paused := true) else restarted
  }

  /** `update_config`: store the new settings and restart from the current word; the paused flag is kept. */
  function UpdateConfig(s: App, showMeaning: RawValue, nextWord: RawValue, alwaysOnTop: bool, now: int): (r: App)
    requires Inv(s)
    ensures Inv(r)
    ensures r.config == Update(showMeaning, nextWord, alwaysOnTop)
    ensures r.paused == s.paused && r.words == s.words && r.wordBank == s.wordBank && r.index == s.index
    ensures s.words != [] ==>
      && r.screen == Screen(s.words[s.index].word, "", "")
      && r.callback == Some(ShowMeaning) && r.remainingMs == Some(ShowMeaningMs(r.config))
    ensures s.words != [] && !s.paused ==>
      r.timers == map[s.nextTimerId := ShowMeaningMs(r.config)] && r.jobEndTime == Some(now + ShowMeaningMs(r.config))
    ensures s.paused ==> r.currentJob.None? && r.timers == map[]
  {
    var updated := s.(config := Update(showMeaning, nextWord, alwaysOnTop));
    var wasPaused := updated.paused;
    var restarted := DisplayWord(ClearJob(updated), now);
    if wasPaused then restarted.(paused := true) else restarted
  }

  /** `WordCyclerApp.__init__`: nothing scheduled and not paused, then `set_words` on the loaded bank. */
  function Start(config: Settings, bank: seq<WordEntry>, now: int, shuffled: seq<WordEntry>): (r: App)
    requires Valid(config) && IsShuffleOf(shuffled, bank)
    ensures Inv(r) && !r.paused && r.index == 0 && r.wordBank == bank
    ensures bank != [] ==> r.screen.word == shuffled[0].word && |r.timers| == 1
  {
    var initial := App(config, bank, [], 0, Screen("", "", ""), false, None, None, None, None, map[], 0);
    SetWords(initial, bank, now, shuffled)
  }

  /** A word list saved while paused shows its first word and holds its reveal; resuming then arms
      the reveal for the full show-meaning delay. */
  lemma ResumeAfterPausedSetWords(s: App, bank: seq<WordEntry>, t1: int, shuffled: seq<WordEntry>, t2: int, reshuffled: seq<WordEntry>)
    requires Inv(s) && s.paused && bank != [] && IsShuffleOf(shuffled, bank)
    requires IsShuffleOf(reshuffled, shuffled)
    ensures var p := SetWords(s, bank, t1, shuffled);
      var r := Resume(p, t2, reshuffled);
      && p.paused && p.timers == map[]
      && !r.paused && r.screen == Screen(shuffled[0].word, "", "") && r.callback == Some(ShowMeaning)
      && r.timers == map[p.nextTimerId := ShowMeaningMs(s.config)]
      && r.jobEndTime == Some(t2 + ShowMeaningMs(s.config))
  {
    AtMostOneTimer(s);
    var p := SetWords(s, bank, t1, shuffled);
    assert p.remainingMs == Some(ShowMeaningMs(s.config)) && ShowMeaningMs(s.config) > 0;
  }

  /** Pausing twice is pausing once, whatever the clock says the second time. */
  lemma PauseIdempotent(s: App, t1: int, t2: int)
    ensures Pause(Pause(s, t1), t2) == Pause(s, t1)
  {
  }

  /** Paused before the deadline, the job resumes with exactly the time that was left: the deadline
      moves by the length of the pause and nothing else about the cycle changes. */
  lemma PauseResumeKeepsTimeLeft(s: App, t1: int, t2: int, shuffled: seq<WordEntry>)
    requires Inv(s) && s.currentJob.Some? && IsShuffleOf(shuffled, s.words)
    requires t1 < s.jobEndTime.value
    ensures var r := Resume(Pause(s, t1), t2, shuffled);
      && !r.paused && r.callback == s.callback && SameCycle(r, s)
      && r.timers == map[s.nextTimerId := s.jobEndTime.value - t1]
      && r.jobEndTime == Some(s.jobEndTime.value + (t2 - t1))
      && r.remainingMs == Some(s.jobEndTime.value - t1)
  {
    var p := Pause(s, t1);
    assert p.remainingMs == Some(s.jobEndTime.value - t1);
    AtMostOneTimer(p);
  }

  /** Paused at or after the deadline, resuming runs the stored callback at once: the result is what
      the timer firing at the moment of resuming would have produced. */
  lemma PauseResumePastDeadline(s: App, t1: int, t2: int, shuffled: seq<WordEntry>)
    requires Inv(s) && s.currentJob.Some? && IsShuffleOf(shuffled, s.words)
    requires t1 >= s.jobEndTime.value
    ensures Resume(Pause(s, t1), t2, shuffled) == TimerFires(s, t2, shuffled)
  {
    var p := Pause(s, t1);
    assert p.remainingMs == Some(0);
    var q := p.(paused := false);
    assert q.(callback := None, remainingMs := None, jobEndTime := None)
      == s.(timers := s.timers - {s.currentJob.value}, currentJob := None, callback := None, remainingMs := None, jobEndTime := None);
  }

  /** Two timer firings from a freshly shown word show the next word, still drawn from the same bank. */
  lemma WordMeaningNextCycle(s: App, t1: int, t2: int, shuffled1: seq<WordEntry>, shuffled2: seq<WordEntry>)
    requires Inv(s) && s.currentJob.Some? && s.callback == Some(ShowMeaning)
    requires IsShuffleOf(shuffled1, s.words) && IsShuffleOf(shuffled2, s.words)
    ensures TimerFires(s, t1, shuffled1).currentJob.Some? && TimerFires(s, t1, shuffled1).words == s.words
    ensures var n := TimerFires(TimerFires(s, t1, shuffled1), t2, shuffled2);
      && n.index == (s.index + 1) % |s.words|
      && n.screen.word == n.words[n.index].word
      && multiset(n.words) == multiset(s.wordBank)
  {
    RevealFires(s, t1, shuffled1);
    AdvanceAfterReveal(s, TimerFires(s, t1, shuffled1), t2, shuffled2);
  }

  lemma AdvanceAfterReveal(s: App, m: App, now: int, shuffled: seq<WordEntry>)
    requires Inv(s) && Inv(m) && m.currentJob.Some? && m.callback == Some(AdvanceWord)
    requires m.words == s.words && m.index == s.index && m.wordBank == s.wordBank
    requires IsShuffleOf(shuffled, s.words)
    ensures var n := TimerFires(m, now, shuffled);
      && n.index == (s.index + 1) % |s.words|
      && n.screen.word == n.words[n.index].word
      && multiset(n.words) == multiset(s.wordBank)
  {
    AdvanceFires(m, now, shuffled);
  }

  /** What can happen to a running cycler: the pause button, a timer firing, a saved word list,
      saved settings. Each carries the clock reading, and the shuffle outcome where one may be needed. */
  datatype Event =
    | PauseButton(now: int, shuffled: seq<WordEntry>)
    | Fire(now: int, shuffled: seq<WordEntry>)
    | WordsSaved(bank: seq<WordEntry>, now: int, shuffled: seq<WordEntry>)
    | SettingsSaved(showMeaning: RawValue, nextWord: RawValue, alwaysOnTop: bool, now: int)

  /** The event can happen in `s`: a timer fires only while pending, shuffles are permutations. */
  predicate Enabled(s: App, e: Event) {
    match e
    case PauseButton(_, shuffled) => IsShuffleOf(shuffled, s.words)
    case Fire(_, shuffled) => s.currentJob.Some? && IsShuffleOf(shuffled, s.words)
    case WordsSaved(bank, _, shuffled) => IsShuffleOf(shuffled, bank)
    case SettingsSaved(_, _, _, _) => true
  }

  function Step(s: App, e: Event): (r: App)
    requires Inv(s) && Enabled(s, e)
    ensures Inv(r)
  {
    match e
    case PauseButton(now, shuffled) => TogglePause(s, now, shuffled)
    case Fire(now, shuffled) => TimerFires(s, now, shuffled)
    case WordsSaved(bank, now, shuffled) => SetWords(s, bank, now, shuffled)
    case SettingsSaved(show, next, top, now) => UpdateConfig(s, show, next, top, now)
  }

  /** Every event of the trace is enabled when it happens. */
  predicate Runs(s: App, events: seq<Event>)
    decreases |events|
  {
    events == [] || (Inv(s) && Enabled(s, events[0]) && Runs(Step(s, events[0]), events[1..]))
  }

  function Run(s: App, events: seq<Event>): App
    requires Inv(s) && Runs(s, events)
    decreases |events|
  {
    if events == [] then s else Run(Step(s, events[0]), events[1..])
  }

  /** Along any trace from a started cycler the invariant holds: at most one timer pending, the
      index in range, the time left never negative, and the words a shuffle of the bank. */
  lemma {:induction false} RunKeepsInvariant(s: App, events: seq<Event>)
    requires Inv(s) && Runs(s, events)
    ensures Inv(Run(s, events)) && |Run(s, events).timers| <= 1
    decreases |events|
  {
    if events == [] {
      AtMostOneTimer(s);
    } else {
      RunKeepsInvariant(Step(s, events[0]), events[1..]);
    }
  }

  /** Only the pause button changes the paused flag. */
  lemma {:induction false} OnlyPauseButtonPauses(s: App, events: seq<Event>)
    requires Inv(s) && Runs(s, events)
    requires forall i :: 0 <= i < |events| ==> !events[i].PauseButton?
    ensures Run(s, events).paused == s.paused
    decreases |events|
  {
    if events != [] {
      var e := events[0];
      if e.Fire? {
        assert !s.paused;
      }
      OnlyPauseButtonPauses(Step(s, e), events[1..]);
    }
  }
}

=== FILE: text.dfy ===
/** The string operations the word loader and the CSV header matcher rely on:
    Python's `str.strip()`, `str.lstrip("\ufeff")` and `str.lower()`. */
module Text {

  /** The characters for which Python's `str.isspace()` holds; `str.strip()` removes exactly these. */
  predicate IsSpace(c: char) {
    || c == ' ' || c == '\t' || c == '\n' || c == '\r'
    || c == '\U{000B}' || c == '\U{000C}'
    || ('\U{001C}' <= c <= '\U{001F}')
    || c == '\U{0085}' || c == '\U{00A0}' || c == '\U{1680}'
    || ('\U{2000}' <= c <= '\U{200A}')
    || c == '\U{2028}' || c == '\U{2029}' || c == '\U{202F}' || c == '\U{205F}' || c == '\U{3000}'
  }

  /** The byte-order mark some editors put in front of a CSV header. It is not whitespace. */
  const Bom: char := '\U{FEFF}'

  predicate IsBom(c: char) {
    c == Bom
  }

  predicate AllSpace(s: string) {
    forall i :: 0 <= i < |s| ==> IsSpace(s[i])
  }

  /** No whitespace at either end: what `str.strip()` leaves behind. */
  predicate Trimmed(s: string) {
    s == [] || (!IsSpace(s[0]) && !IsSpace(s[|s| - 1]))
  }

  /** The length of the longest prefix of `s` whose characters all satisfy `cls`. */
  function LeadingRun(s: string, cls: char -> bool): (n: nat)
    ensures n <= |s|
    ensures forall i :: 0 <= i < n ==> cls(s[i])
    ensures n < |s| ==> !cls(s[n])
  {
    if s == [] || !cls(s[0]) then 0 else 1 + LeadingRun(s[1..], cls)
  }

  /** The length of the longest suffix of `s` whose characters all satisfy `cls`. */
  function TrailingRun(s: string, cls: char -> bool): (n: nat)
    ensures n <= |s|
    ensures forall i :: |s| - n <= i < |s| ==> cls(s[i])
    ensures n < |s| ==> !cls(s[|s| - 1 - n])
  {
    if s == [] || !cls(s[|s| - 1]) then 0 else 1 + TrailingRun(s[..|s| - 1], cls)
  }

  function StripLeft(s: string): string {
    s[LeadingRun(s, IsSpace)..]
  }

  function StripRight(s: string): string {
    s[..|s| - TrailingRun(s, IsSpace)]
  }

  /** Python's `s.strip()`. */
  function Strip(s: string): (r: string)
    ensures Trimmed(r)
    ensures |r| <= |s|
  {
    var t := StripLeft(s);
    var r := StripRight(t);
    assert r != [] ==> r[0] == t[0];
    r
  }

  /** `strip()` leaves nothing exactly when the string is all whitespace. */
  lemma StripEmpty(s: string)
    ensures Strip(s) == [] <==> AllSpace(s)
  {
    if AllSpace(s) {
      assert LeadingRun(s, IsSpace) == |s|;
    }
    var pre, post := StripSplits(s);
    if Strip(s) == [] {
      assert s == pre + post;
      SpacesConcat(pre, post);
    }
  }

  lemma SpacesConcat(a: string, b: string)
    requires AllSpace(a) && AllSpace(b)
    ensures AllSpace(a + b)
  {
    assert forall i :: |a| <= i < |a + b| ==> (a + b)[i] == b[i - |a|];
  }

  /** Text with no surrounding whitespace is left as it is. */
  lemma StripTrimmed(s: string)
    requires Trimmed(s)
    ensures Strip(s) == s
  {
    StripUnique([], s, []);
    assert [] + s + [] == s;
  }

  /** Python's `s.lstrip("\ufeff")`: every leading byte-order mark goes. */
  function StripLeadingBoms(s: string): (r: string)
    ensures r == [] || !IsBom(r[0])
    ensures exists k :: 0 <= k <= |s| && r == s[k..]
    ensures forall i :: 0 <= i < |s| - |r| ==> IsBom(s[i])
  {
    s[LeadingRun(s, IsBom)..]
  }

  function LowerChar(c: char): char {
    if 'A' <= c <= 'Z' then (c as int + 32) as char else c
  }

  /** Python's `s.lower()` on the ASCII letters. */
  function Lower(s: string): (r: string)
    ensures SameIgnoringCase(r, s)
    ensures forall i :: 0 <= i < |r| ==> !('A' <= r[i] <= 'Z')
  {
    seq(|s|, i requires 0 <= i < |s| => LowerChar(s[i]))
  }

  /** `s` and `t` spell the same text once letters are lower-cased. */
  predicate SameIgnoringCase(s: string, t: string) {
    |s| == |t| && forall i :: 0 <= i < |s| ==> LowerChar(s[i]) == LowerChar(t[i])
  }

  /** Whatever surrounds the stripped text is whitespace: `s` is `pre + Strip(s) + post`. */
  lemma StripSplits(s: string) returns (pre: string, post: string)
    ensures AllSpace(pre) && AllSpace(post) && s == pre + Strip(s) + post
  {
    var a := LeadingRun(s, IsSpace);
    var t := s[a..];
    var b := TrailingRun(t, IsSpace);
    pre, post := s[..a], t[|t| - b..];
    RunsAreWhitespace(s, a, t, b);
    SliceInThree(s, a, t, b);
    assert Strip(s) == t[..|t| - b];
  }

  lemma SliceInThree(s: string, a: nat, t: string, b: nat)
    requires a <= |s| && t == s[a..] && b <= |t|
    ensures s == s[..a] + t[..|t| - b] + t[|t| - b..]
  {
    assert t == t[..|t| - b] + t[|t| - b..];
  }

  lemma RunsAreWhitespace(s: string, a: nat, t: string, b: nat)
    requires a == LeadingRun(s, IsSpace) && t == s[a..] && b == TrailingRun(t, IsSpace)
    ensures AllSpace(s[..a]) && AllSpace(t[|t| - b..])
  {
    var post := t[|t| - b..];
    forall i | 0 <= i < |post| ensures IsSpace(post[i]) {
      assert post[i] == t[|t| - b + i];
    }
  }

  /** Stripping a string that is whitespace, then trimmed text, then whitespace yields that text. */
  lemma StripUnique(pre: string, m: string, post: string)
    requires AllSpace(pre) && AllSpace(post) && Trimmed(m)
    ensures Strip(pre + m + post) == m
  {
    var s := pre + m + post;
    if m == [] {
      assert AllSpace(s) by {
        forall i | 0 <= i < |s| ensures IsSpace(s[i]) {
          if i < |pre| { assert s[i] == pre[i]; } else { assert s[i] == post[i - |pre|]; }
        }
      }
    } else {
      var a := LeadingRun(s, IsSpace);
      assert !IsSpace(s[|pre|]) by { assert s[|pre|] == m[0]; }
      assert forall i :: 0 <= i < |pre| ==> s[i] == pre[i];
      assert a == |pre|;
      var t := s[a..];
      assert t == m + post;
      var b := TrailingRun(t, IsSpace);
      assert !IsSpace(t[|m| - 1]) by { assert t[|m| - 1] == m[|m| - 1]; }
      assert forall i :: |m| <= i < |t| ==> t[i] == post[i - |m|];
      assert b == |post|;
      assert t[..|t| - b] == m;
    }
  }

  /** Stripping twice is stripping once. */
  lemma StripIdempotent(s: string)
    ensures Strip(Strip(s)) == Strip(s)
  {
    StripUnique([], Strip(s), []);
    assert [] + Strip(s) + [] == Strip(s);
  }

  /** Whitespace added around a string does not change what `strip()` returns. */
  lemma StripIgnoresPadding(left: string, s: string, right: string)
    requires AllSpace(left) && AllSpace(right)
    ensures Strip(left + s + right) == Strip(s)
  {
    var pre, post := StripSplits(s);
    Regroup(left, s, right, pre, Strip(s), post);
    SpacesConcat(left, pre);
    SpacesConcat(post, right);
    StripUnique(left + pre, Strip(s), post + right);
  }

  lemma Regroup(left: string, s: string, right: string, pre: string, m: string, post: string)
    requires s == pre + m + post
    ensures left + s + right == (left + pre) + m + (post + right)
  {
  }

  /** Lower-casing never turns a character into, or out of, whitespace or a byte-order mark. */
  lemma CaseKeepsClasses(c: char, d: char)
    requires LowerChar(c) == LowerChar(d)
    ensures IsSpace(c) <==> IsSpace(d)
    ensures IsBom(c) <==> IsBom(d)
  {
  }

  /** Two strings that agree up to case have equally long leading runs of a case-blind class. */
  lemma LeadingRunIgnoresCase(s: string, t: string, cls: char -> bool)
    requires SameIgnoringCase(s, t)
    requires forall i :: 0 <= i < |s| ==> (cls(s[i]) <==> cls(t[i]))
    ensures LeadingRun(s, cls) == LeadingRun(t, cls)
  {
  }

  lemma TrailingRunIgnoresCase(s: string, t: string, cls: char -> bool)
    requires SameIgnoringCase(s, t)
    requires forall i :: 0 <= i < |s| ==> (cls(s[i]) <==> cls(t[i]))
    ensures TrailingRun(s, cls) == TrailingRun(t, cls)
  {
  }

  /** A character that is not in the class does not lengthen a trailing run when put in front. */
  lemma TrailingRunPrepend(c: char, s: string, cls: char -> bool)
    requires !cls(c)
    ensures TrailingRun([c] + s, cls) == TrailingRun(s, cls)
  {
    var t := [c] + s;
    if s != [] {
      assert t[|t| - 1] == s[|s| - 1];
      assert t[..|t| - 1] == [c] + s[..|s| - 1];
      TrailingRunPrepend(c, s[..|s| - 1], cls);
    }
  }

  /** A leading character that is not whitespace, followed by one that is not either, survives `strip()`. */
  lemma StripConsNonSpace(c: char, s: string)
    requires !IsSpace(c) && (s == [] || !IsSpace(s[0]))
    ensures Strip([c] + s) == [c] + Strip(s)
  {
    var t := [c] + s;
    assert t[1..] == s;
    TrailingRunPrepend(c, s, IsSpace);
    assert StripLeft(t) == t && StripLeft(s) == s;
    var b := TrailingRun(s, IsSpace);
    assert t[..|t| - b] == [c] + s[..|s| - b];
  }

  /** `lstrip("\ufeff")` removes a leading byte-order mark along with any that follow it. */
  lemma StripLeadingBomsCons(s: string)
    ensures StripLeadingBoms([Bom] + s) == StripLeadingBoms(s)
  {
    assert ([Bom] + s)[1..] == s;
  }

  /** `strip()` cuts two strings that agree up to case at the same places. */
  lemma StripIgnoresCase(s: string, t: string)
    requires SameIgnoringCase(s, t)
    ensures SameIgnoringCase(Strip(s), Strip(t))
  {
    forall i | 0 <= i < |s| ensures IsSpace(s[i]) <==> IsSpace(t[i]) {
      CaseKeepsClasses(s[i], t[i]);
    }
    LeadingRunIgnoresCase(s, t, IsSpace);
    var a := LeadingRun(s, IsSpace);
    var s1, t1 := s[a..], t[a..];
    assert SameIgnoringCase(s1, t1) by {
      forall i | 0 <= i < |s1| ensures LowerChar(s1[i]) == LowerChar(t1[i]) {
        assert s1[i] == s[a + i] && t1[i] == t[a + i];
      }
    }
    forall i | 0 <= i < |s1| ensures IsSpace(s1[i]) <==> IsSpace(t1[i]) {
      CaseKeepsClasses(s1[i], t1[i]);
    }
    TrailingRunIgnoresCase(s1, t1, IsSpace);
  }

  /** `lstrip("\ufeff")` cuts two strings that agree up to case at the same place. */
  lemma StripLeadingBomsIgnoresCase(s: string, t: string)
    requires SameIgnoringCase(s, t)
    ensures SameIgnoringCase(StripLeadingBoms(s), StripLeadingBoms(t))
  {
    forall i | 0 <= i < |s| ensures IsBom(s[i]) <==> IsBom(t[i]) {
      CaseKeepsClasses(s[i], t[i]);
    }
    LeadingRunIgnoresCase(s, t, IsBom);
    var a := LeadingRun(s, IsBom);
    forall i | 0 <= i < |s| - a ensures LowerChar(s[a..][i]) == LowerChar(t[a..][i]) {
      assert s[a..][i] == s[a + i] && t[a..][i] == t[a + i];
    }
  }

  /** Lower-casing keeps whether a string starts with a byte-order mark. */
  lemma LowerKeepsFirstBom(s: string)
    ensures s != [] ==> (IsBom(Lower(s)[0]) <==> IsBom(s[0]))
  {
    if s != [] {
      CaseKeepsClasses(Lower(s)[0], s[0]);
    }
  }

  /** Lower-casing maps two strings to the same text exactly when they agree up to case. */
  lemma LowerIgnoresCase(s: string, t: string)
    ensures Lower(s) == Lower(t) <==> SameIgnoringCase(s, t)
  {
    if Lower(s) == Lower(t) {
      forall i | 0 <= i < |s| ensures LowerChar(s[i]) == LowerChar(t[i]) {
        assert Lower(s)[i] == Lower(t)[i];
      }
    }
  }

  /** Lower-casing twice is lower-casing once. */
  lemma LowerIdempotent(s: string)
    ensures Lower(Lower(s)) == Lower(s)
  {
    var r := Lower(s);
    forall i | 0 <= i < |r| ensures Lower(r)[i] == r[i] {
      assert !('A' <= r[i] <= 'Z');
    }
  }
}

=== FILE: words.dfy ===
/** Validation of vocabulary records: the filter shared by the JSON loader, the CSV loader
    and the word-list editor's save button. */
module WordStore {
  import opened Results
  import opened Text

  /** A validated vocabulary entry, as stored in the word bank. */
  datatype WordEntry = WordEntry(word: string, reading: string, meaning: string)

  /** One element of a parsed word file: an object with string-valued fields, or anything else. */
  datatype RawItem = NonObject | Object(fields: map<string, string>)

  /** A parsed `words.json` document: an array of items, or some other top-level value. */
  datatype JsonDocument = Array(items: seq<RawItem>) | NotAnArray

  /** Why a word file was refused; each error names the file it came from. */
  datatype LoadError =
    | WrongTopLevel(source: string)
    | NoHeaderRow(source: string)
    | MissingHeaders(source: string)
    | NoValidEntries(source: string)

  /** The editor refuses to save a word list with nothing valid in it. */
  datatype EditError = EmptyWordList

  /** `item.get(key, "")`: a missing field reads as the empty string. */
  function FieldOf(fields: map<string, string>, key: string): string {
    if key in fields then fields[key] else ""
  }

  /** No field is the empty string. */
  predicate NoneEmpty(e: WordEntry) {
    e.word != [] && e.reading != [] && e.meaning != []
  }

  /** Every field non-empty and free of surrounding whitespace. */
  predicate IsClean(e: WordEntry) {
    && NoneEmpty(e)
    && Trimmed(e.word) && Trimmed(e.reading) && Trimmed(e.meaning)
  }

  /** The entry an object would be stored as: each of its three fields stripped. */
  function TrimFields(fields: map<string, string>): WordEntry {
    WordEntry(Strip(FieldOf(fields, "word")), Strip(FieldOf(fields, "reading")), Strip(FieldOf(fields, "meaning")))
  }

  /** The entry one raw item contributes to the cleaned list, if any. */
  function Accept(item: RawItem): (r: Option<WordEntry>)
    ensures r.Some? ==> item.Object? && r.value == TrimFields(item.fields)
  {
    match item
    case NonObject => None
    case Object(fields) =>
      var e := TrimFields(fields);
      if NoneEmpty(e) then Some(e) else None
  }

  /** An item is kept exactly when it is an object none of whose three fields is blank. */
  lemma AcceptsNonBlank(item: RawItem)
    ensures Accept(item).Some? <==>
      && item.Object?
      && !AllSpace(FieldOf(item.fields, "word"))
      && !AllSpace(FieldOf(item.fields, "reading"))
      && !AllSpace(FieldOf(item.fields, "meaning"))
  {
    if item.Object? {
      StripEmpty(FieldOf(item.fields, "word"));
      StripEmpty(FieldOf(item.fields, "reading"));
      StripEmpty(FieldOf(item.fields, "meaning"));
    }
  }

  /** The kept entries of `items`, in order: the loop of `_clean_word_entries`. */
  function Clean(items: seq<RawItem>): (r: seq<WordEntry>)
    ensures |r| <= |items|
    ensures r == [] <==> forall i :: 0 <= i < |items| ==> Accept(items[i]).None?
  {
    if items == [] then []
    else
      var rest := Clean(items[1..]);
      assert forall i :: 1 <= i < |items| ==> items[i] == items[1..][i - 1];
      match Accept(items[0])
      case Some(e) => [e] + rest
      case None => rest
  }

  /** A kept entry is stored with each field stripped and none of them empty. */
  lemma AcceptedIsClean(item: RawItem)
    requires Accept(item).Some?
    ensures IsClean(Accept(item).value)
  {
  }

  /** Every entry of the cleaned list is clean. */
  lemma {:induction false} CleanIsClean(items: seq<RawItem>)
    ensures forall k :: 0 <= k < |Clean(items)| ==> IsClean(Clean(items)[k])
  {
    if items != [] {
      var rest := Clean(items[1..]);
      CleanIsClean(items[1..]);
      CleanCons(items);
      if Accept(items[0]).Some? {
        AcceptedIsClean(items[0]);
        var c := Clean(items);
        assert c == [Accept(items[0]).value] + rest;
        forall k | 0 <= k < |c| ensures IsClean(c[k]) {
          if k > 0 {
            assert c[k] == rest[k - 1];
          }
        }
      }
    }
  }

  /** `_clean_word_entries`: the kept entries, or an error naming the source when none survive. */
  function CleanEntries(items: seq<RawItem>, source: string): (r: Result<seq<WordEntry>, LoadError>)
    ensures r.Err? <==> forall i :: 0 <= i < |items| ==> Accept(items[i]).None?
    ensures r.Err? ==> r.error == NoValidEntries(source)
    ensures r.Ok? ==> r.value == Clean(items) && 0 < |r.value| <= |items|
  {
    var cleaned := Clean(items);
    if cleaned == [] then Err(NoValidEntries(source)) else Ok(cleaned)
  }

  /** `load_words` after `json.load`: the document must be an array, whose items are then cleaned. */
  function LoadWords(doc: JsonDocument, source: string): (r: Result<seq<WordEntry>, LoadError>)
    ensures doc.NotAnArray? ==> r == Err(WrongTopLevel(source))
    ensures doc.Array? ==> r == CleanEntries(doc.items, source)
    ensures r.Ok? ==> r.value != [] && forall k :: 0 <= k < |r.value| ==> IsClean(r.value[k])
  {
    match doc
    case NotAnArray => Err(WrongTopLevel(source))
    case Array(items) =>
      CleanIsClean(items);
      CleanEntries(items, source)
  }

  /** Filtering distributes over concatenation, so the kept entries keep their relative order. */
  lemma {:induction false} CleanAppend(a: seq<RawItem>, b: seq<RawItem>)
    ensures Clean(a + b) == Clean(a) + Clean(b)
  {
    if a == [] {
      assert a + b == b;
    } else {
      assert (a + b)[1..] == a[1..] + b;
      CleanAppend(a[1..], b);
    }
  }

  /** One item on its own is kept, trimmed, exactly when it is an object with three non-blank fields. */
  lemma CleanSingle(item: RawItem)
    ensures Clean([item]) == (if Accept(item).Some? then [Accept(item).value] else [])
  {
    assert [item][1..] == [];
  }

  /** An entry is in the cleaned list exactly when some input item is kept as that entry. */
  lemma {:induction false} CleanMembership(items: seq<RawItem>, e: WordEntry)
    ensures e in Clean(items) <==> exists i :: 0 <= i < |items| && Accept(items[i]) == Some(e)
  {
    if items != [] {
      var tail := items[1..];
      CleanMembership(tail, e);
      CleanCons(items);
      if e in Clean(items) && Accept(items[0]) != Some(e) {
        assert e in Clean(tail);
        var j :| 0 <= j < |tail| && Accept(tail[j]) == Some(e);
        assert items[j + 1] == tail[j];
      }
      if exists i :: 0 <= i < |items| && Accept(items[i]) == Some(e) {
        var i :| 0 <= i < |items| && Accept(items[i]) == Some(e);
        if i > 0 {
          assert tail[i - 1] == items[i];
        }
      }
    }
  }

  /** The view of a stored entry as a record with the three fields. */
  function AsItem(e: WordEntry): RawItem {
    Object(map["word" := e.word, "reading" := e.reading, "meaning" := e.meaning])
  }

  function AsItems(es: seq<WordEntry>): seq<RawItem> {
    seq(|es|, i requires 0 <= i < |es| => AsItem(es[i]))
  }

  lemma AsItemsCons(es: seq<WordEntry>)
    requires es != []
    ensures AsItems(es)[0] == AsItem(es[0]) && AsItems(es)[1..] == AsItems(es[1..])
  {
  }

  /** A clean entry survives the filter unchanged. */
  lemma AcceptClean(e: WordEntry)
    requires IsClean(e)
    ensures Accept(AsItem(e)) == Some(e)
  {
    StripTrimmed(e.word);
    StripTrimmed(e.reading);
    StripTrimmed(e.meaning);
    AsItemFields(e);
  }

  lemma AsItemFields(e: WordEntry)
    ensures FieldOf(AsItem(e).fields, "word") == e.word
    ensures FieldOf(AsItem(e).fields, "reading") == e.reading
    ensures FieldOf(AsItem(e).fields, "meaning") == e.meaning
  {
  }

  /** Cleaning an already cleaned list changes nothing. */
  lemma {:induction false} CleanIdempotent(es: seq<WordEntry>)
    requires forall k :: 0 <= k < |es| ==> IsClean(es[k])
    ensures Clean(AsItems(es)) == es
  {
    if es != [] {
      AcceptClean(es[0]);
      AsItemsCons(es);
      CleanIdempotent(es[1..]);
      CleanCons(AsItems(es));
    }
  }

  /** One entry as the editor stores it: each field stripped. */
  function TrimEntry(e: WordEntry): WordEntry {
    WordEntry(Strip(e.word), Strip(e.reading), Strip(e.meaning))
  }

  /** The editor's filter in `_save_words`: strip each entry's fields, keep those with none blank. */
  function TrimEntries(entries: seq<WordEntry>): (r: seq<WordEntry>)
    ensures |r| <= |entries|
    ensures forall k :: 0 <= k < |r| ==> IsClean(r[k])
  {
    if entries == [] then []
    else
      var t := TrimEntry(entries[0]);
      var rest := TrimEntries(entries[1..]);
      if NoneEmpty(t) then ConsClean(t, rest); [t] + rest
      else rest
  }

  lemma ConsClean(t: WordEntry, rest: seq<WordEntry>)
    requires IsClean(t) && forall k :: 0 <= k < |rest| ==> IsClean(rest[k])
    ensures forall k :: 0 <= k < |[t] + rest| ==> IsClean(([t] + rest)[k])
  {
    forall k | 0 <= k < |[t] + rest| ensures IsClean(([t] + rest)[k]) {
      if k > 0 {
        assert ([t] + rest)[k] == rest[k - 1];
      }
    }
  }

  /** The editor applies the same rule as the file loaders. */
  lemma {:induction false} TrimEntriesIsClean(entries: seq<WordEntry>)
    ensures TrimEntries(entries) == Clean(AsItems(entries))
  {
    if entries != [] {
      var items := AsItems(entries);
      AsItemsCons(entries);
      TrimEntriesIsClean(entries[1..]);
      CleanCons(items);
      AsItemFields(entries[0]);
    }
  }

  /** One step of the filter: the first item's entry, if kept, followed by the rest cleaned. */
  lemma CleanCons(items: seq<RawItem>)
    requires items != []
    ensures Clean(items) == (if Accept(items[0]).Some? then [Accept(items[0]).value] else []) + Clean(items[1..])
  {
  }

  /** `SettingsWindow._save_words`: the filtered list, or a refusal when nothing valid remains. */
  function SaveWordList(entries: seq<WordEntry>): (r: Result<seq<WordEntry>, EditError>)
    ensures r.Err? <==> forall i :: 0 <= i < |entries| ==> HasBlankField(entries[i])
    ensures r.Ok? ==> r.value != [] && |r.value| <= |entries|
    ensures r.Ok? ==> forall k :: 0 <= k < |r.value| ==> IsClean(r.value[k])
    ensures r.Ok? ==> r.value == Clean(AsItems(entries))
  {
    var cleaned := TrimEntries(entries);
    TrimEntriesIsClean(entries);
    CleanIsClean(AsItems(entries));
    TrimEntriesEmpty(entries);
    if cleaned == [] then Err(EmptyWordList) else Ok(cleaned)
  }

  /** Some field of the entry is empty or whitespace only. */
  predicate HasBlankField(e: WordEntry) {
    AllSpace(e.word) || AllSpace(e.reading) || AllSpace(e.meaning)
  }

  /** The editor drops an entry exactly when it has a blank field. */
  lemma TrimEntryDropped(e: WordEntry)
    ensures !NoneEmpty(TrimEntry(e)) <==> HasBlankField(e)
  {
    StripEmpty(e.word);
    StripEmpty(e.reading);
    StripEmpty(e.meaning);
  }

  /** The editor's filter keeps nothing exactly when every entry has a blank field. */
  lemma {:induction false} TrimEntriesEmpty(entries: seq<WordEntry>)
    ensures TrimEntries(entries) == [] <==> forall i :: 0 <= i < |entries| ==> HasBlankField(entries[i])
  {
    if entries != [] {
      var tail := entries[1..];
      TrimEntriesEmpty(tail);
      TrimEntryDropped(entries[0]);
      if forall i :: 0 <= i < |entries| ==> HasBlankField(entries[i]) {
        forall i | 0 <= i < |tail| ensures HasBlankField(tail[i]) {
          assert tail[i] == entries[i + 1];
        }
      }
      if TrimEntries(entries) == [] {
        forall i | 0 <= i < |entries| ensures HasBlankField(entries[i]) {
          if i > 0 {
            assert entries[i] == tail[i - 1];
          }
        }
      }
    }
  }

  /** Saving the editor's list a second time keeps it as it is. */
  lemma SaveWordListIdempotent(entries: seq<WordEntry>)
    requires SaveWordList(entries).Ok?
    ensures SaveWordList(SaveWordList(entries).value) == SaveWordList(entries)
  {
    var saved := SaveWordList(entries).value;
    TrimEntriesIsClean(saved);
    CleanIdempotent(saved);
  }
}
